=== FILE: README.md ===
# Notes, tags and image attachments — a Dafny model

This project models the consistency logic of a browser note-taking app.
The app stores notes and tags in local storage. While a note is being
edited, it uploads images to a hosted image service. Two pieces carry that
logic, and both are modelled here:

- **The note repository and tag registry** (`client/src/App.tsx`). Notes
  are a sequence of `RawNote {id, title, markdown, tagIds, images}` and
  tags are a sequence of `Tag {id, label}`. Create, update and delete of
  notes, and add, rename and delete of tags, are total functions from one
  sequence to the next. `notesWithTags` is the derived view: it replaces
  each note's tag ids by the tag records that still exist.
- **Image-attachment reconciliation in the note form**
  (`client/src/components/NoteForm.tsx`). The state is the working
  markdown, the working image list, and the browser-wide `tempUploads`
  key, which lists uploads not yet saved. The transitions are:
  - upload, which splices `![name](url)` in at the caret;
  - explicit delete (`deleteImage`), which can also strip the image's
    references with a global regex replace. That stripping path
    (`updateMarkdown = true`) exists in the code, but nothing reaches it:
    the only call, at save, passes `false`, and the form has no delete
    control (its help popover tells the user to erase the link by hand);
  - save, which splits the images into referenced and unreferenced;
  - cleanup on mount;
  - the unsaved-work test used on `beforeunload`.

Modules, one per file:

| file | module | models |
|---|---|---|
| `options.dfy` | `Options` | optional values (`undefined`, a failed `find`) |
| `seqs.dfy` | `Seqs` | `filter`, `map` and `includes`, with the sequence facts the other modules use |
| `note_store.dfy` | `NoteStore` | `App.tsx`: records, repository, registry, resolution |
| `markdown_images.dfy` | `MarkdownImages` | snippet splicing at the caret and the reference-stripping regex |
| `note_editor.dfy` | `NoteEditor` | `NoteForm.tsx`: upload, delete, save, mount cleanup, unsaved work |

How the outside world enters the model:

- **Network replies are parameters.** An upload reply is failed or carries
  `{url, public_id}`. A delete reply is a success flag. At mount cleanup,
  each `fetch` either settles with a response (of any status) or is
  rejected.
- **Fresh ids are parameters.** `uuidV4()` becomes a caller-supplied id.
  Creating a note requires that no stored note already has that id.
- **Storage is part of the state.** The `tempUploads` key is
  `Option<seq<string>>`, where `None` means the key is absent.
- **Other inputs are parameters too.** The caret is the textarea's
  `selectionStart`/`selectionEnd`, or nothing. The title, the selected
  tags and the file name are also parameters.

Some behaviours of the code are easy to misread. The model keeps them as
the code has them:

- **Explicit delete removes all matches.** The `filter` on the images
  list (client/src/components/NoteForm.tsx:175) drops every entry with
  that public id, not just the first. The regex's global flag
  (client/src/components/NoteForm.tsx:180) makes the replace remove every
  `![alt](url)` reference to the url of the first such entry, each with
  one following newline if there is one.
- **Explicit delete leaves `tempUploads` alone.** An image uploaded and
  then passed to `deleteImage` stays pending, so the editor stays in the
  "unsaved work" state until it saves or cleans up
  (`NoteEditor.UploadThenDelete`).
- **Save clears `tempUploads` unconditionally.** The save path has no
  failure branch: the key is removed whatever the delete replies were.
- **Mount cleanup clears `tempUploads` only if no `fetch` was rejected.**
  A delete answered with an error status still lets the key be removed,
  because `fetch` does not reject on HTTP errors. A network failure keeps
  the key.
- **Referenced and unreferenced split the list only conditionally.** They
  never overlap. They cover the working list only when a public id
  identifies one image: an unreferenced image that shares its public id
  with a referenced one is neither saved nor deleted
  (`NoteEditor.SharedIdFallsThrough`, with a concrete instance in
  `NoteEditor.SaveCanMissAnImage`).
- **Stripping runs once and is not repeated.** Removing a reference can
  join the text around it into a new reference to the same url, and that
  reference stays (`MarkdownImages.StripCanLeaveAReference`).
- **The url is matched literally.** The source escapes every regex
  metacharacter in the url before building the pattern. So the model
  compares the url character by character. The alt text runs to the
  first `]`, because `[^\]]*` cannot cross one.
- **Selection offsets follow `substring`.** `String.prototype.substring`
  clamps its bounds and swaps them when they are out of order. The model
  does the same for any offsets, and states the splice
  `md[..start] + "\n\n" + snippet + "\n\n" + md[end..]` for the offsets a
  textarea reports.

## Model

| member | source | states |
|---|---|---|
| `NoteStore.ResolveTags` | client/src/App.tsx:54 | The resolved tags are a subsequence of the registry, in registry order. A registry tag whose id is in the note's `tagIds` occurs as often as in the registry, and every other tag is absent. Ids with no registry entry are silently dropped. |
| `NoteStore.ResolveNote` | client/src/App.tsx:51-56 | A resolved note keeps the stored id, title, markdown and `tagIds`. Its tags are the registry's tags it lists, each as often as in the registry. A note stored without `images` resolves to an empty image list. |
| `NoteStore.NotesWithTags` | client/src/App.tsx:50-58 | The view has one entry per stored note, at the same position, and each entry is that note resolved against the current registry. |
| `NoteStore.CreateNote` | client/src/App.tsx:60-67 | Create appends exactly one note and leaves every earlier note unchanged. The new note has the fresh id, the submitted title and markdown, `tagIds` equal to the submitted tags' ids in order, and the submitted images. If the ids were unique before, they stay unique. |
| `NoteStore.UpdateNote` | client/src/App.tsx:69-79 | Update keeps the length and every note's id and position. Only notes with the matching id get the new title, markdown, tag ids and images. An unknown id leaves the collection unchanged. Unique ids stay unique. |
| `NoteStore.DeleteNote` | client/src/App.tsx:81-85 | Delete keeps every note whose id differs from the given one, as often as it occurred and in its original relative order, and drops every note with that id. |
| `NoteStore.DeleteMissingNoteIsNoop` | client/src/App.tsx:81-85 | Deleting an id that no note carries returns the collection unchanged. |
| `NoteStore.DeleteKeepsIdsUnique` | client/src/App.tsx:81-85 | Deleting keeps note ids unique. |
| `NoteStore.DeletedIdIsGone` | client/src/App.tsx:83 | After a delete, no note carries the deleted id. |
| `NoteStore.RunKeepsIdsUnique` | client/src/App.tsx:60-85 | Any sequence of creates (each with a fresh id), updates and deletes keeps note ids unique. |
| `NoteStore.CreateFirstNote` | client/src/App.tsx:60-67 | Creating `{title "A", markdown "hello", no tags, no images}` in an empty repository gives one note with the fresh id, empty tag ids and an empty image list. |
| `NoteStore.AddTag` | client/src/App.tsx:87-89 | Adding a tag appends it at the end of the registry and keeps every earlier tag. |
| `NoteStore.UpdateTag` | client/src/App.tsx:91-101 | Renaming keeps the registry's length, order and ids. Only tags with the matching id get the new label. |
| `NoteStore.UpdateMissingTagIsNoop` | client/src/App.tsx:91-101 | Renaming an id absent from the registry changes nothing. |
| `NoteStore.UpdateTagKeepsIdsUnique` | client/src/App.tsx:91-101 | Renaming keeps registry ids unique. |
| `NoteStore.AddTagKeepsIdsUnique` | client/src/App.tsx:87-89 | Adding a tag whose id the registry does not use yet (the form draws it from `uuidV4()`) keeps registry ids unique. |
| `NoteStore.DeleteTagKeepsIdsUnique` | client/src/App.tsx:103-107 | Deleting a tag keeps registry ids unique. |
| `NoteStore.RunKeepsTagIdsUnique` | client/src/App.tsx:87-107 | Any sequence of tag adds (each with an unused id), renames and deletes keeps registry ids unique, which the resolution round trip relies on. |
| `NoteStore.DeleteTag` | client/src/App.tsx:103-107 | Deleting a tag keeps every tag with a different id, as often as it occurred and in order, and drops every tag with that id. The note collection is not an argument and does not change. |
| `NoteStore.DeleteMissingTagIsNoop` | client/src/App.tsx:103-107 | Deleting an id absent from the registry changes nothing. |
| `NoteStore.RenameShowsInEveryNote` | client/src/App.tsx:91-101 | After a rename, every resolved note's tags are its previous resolved tags with the same rename applied. No note's `tagIds` (or any other field) changes. |
| `NoteStore.DeleteTagDropsItFromEveryNote` | client/src/App.tsx:103-107 | After a tag delete, every note is still there with the same `tagIds`. Its resolved tags are the previous ones without the deleted tag, so the dangling id is dropped only at view time. |
| `NoteStore.AddTagShowsOnlyWhereListed` | client/src/App.tsx:87-89 | After an add, a resolved note gains the new tag, at the end, exactly when its `tagIds` list the new id. Otherwise its resolved tags are unchanged. |
| `NoteStore.ResolveChosenTags` | client/src/App.tsx:54 | With unique registry ids, resolving the ids of tags chosen from the registry in registry order gives back exactly those tags. |
| `NoteStore.CreateThenResolve` | client/src/App.tsx:60-67 | A note created from tags chosen in registry order resolves to the submitted title, markdown, tags and images under its fresh id. |
| `MarkdownImages.JsSubstring` | client/src/components/NoteForm.tsx:139-141 | `substring` returns a contiguous piece of the string. For in-range, ordered bounds it returns exactly the slice between them. |
| `MarkdownImages.InsertSnippet` | client/src/components/NoteForm.tsx:131-146 | The result always contains the snippet. With a caret it is the text before `start`, a blank line, the snippet, a blank line, then the text from `end`. Without a caret it is the old markdown, a newline, then the snippet. |
| `MarkdownImages.RefMatchLen` | client/src/components/NoteForm.tsx:180 | A match of the reference pattern starts with `!` and has a length that fits in the text. |
| `MarkdownImages.StripRefs` | client/src/components/NoteForm.tsx:180-181 | The global replace never lengthens the markdown. |
| `MarkdownImages.StripKeepsBangFreeText` | client/src/components/NoteForm.tsx:180-181 | Text without a `!` is copied through unchanged, because no match can start in it. |
| `MarkdownImages.StripBangFreeIsIdentity` | client/src/components/NoteForm.tsx:180-181 | Markdown without a `!` is left as it is. |
| `MarkdownImages.RefToUrlMatches` | client/src/components/NoteForm.tsx:180 | A reference `![alt](url)` whose alt has no `]` is matched whole, together with one following newline if there is one. |
| `MarkdownImages.RefToOtherUrlDoesNotMatch` | client/src/components/NoteForm.tsx:180 | A reference whose alt has no `]` to a different url does not match at its `!`, provided neither url contains `)`. |
| `MarkdownImages.StripRemovesExactlyTheRefs` | client/src/components/NoteForm.tsx:178-181 | Cut the markdown into plain text and image references. Stripping then removes exactly the references to the url, each with its optional newline. All other text, including references to other urls, stays in place and in order. |
| `MarkdownImages.StripCanLeaveAReference` | client/src/components/NoteForm.tsx:181 | A single pass of the replace can leave a reference to the url behind. For every alt text without `]`, every second alt text and every url without `!`, the text `!` + `![alt](url)` + `[alt2](url)` becomes `![alt2](url)`: removing the inner reference joins the `!` and `[alt2](url)` into a new one, which stays. |
| `NoteEditor.HasUnsavedWork` | client/src/components/NoteForm.tsx:60-61 | While the pending key is absent or non-empty, unsaved work is reported exactly when the markdown differs from the saved markdown or an upload is pending. |
| `NoteEditor.Upload` | client/src/components/NoteForm.tsx:106-156 | With no file, or a failed upload, nothing changes. A successful upload appends `{url, public_id}` to the working images and `public_id` to the pending list, and splices the snippet in. The new url then occurs in the markdown. The pending key stays well formed. |
| `NoteEditor.FindImage` | client/src/components/NoteForm.tsx:171 | The lookup finds nothing exactly when no working image has the public id. Otherwise it returns the first image that has it. |
| `NoteEditor.DeleteImage` | client/src/components/NoteForm.tsx:158-187 | A failed delete, or an id with no working image, changes nothing. A successful delete removes every image with that public id and keeps every other image as often as it occurred, in order. It strips the found image's url from the markdown only when asked. It never touches the pending list. |
| `NoteEditor.ReferencedImages` | client/src/components/NoteForm.tsx:77-79 | The referenced images are the working images, in order and with their multiplicity, whose url occurs in the markdown. |
| `NoteEditor.UnreferencedImages` | client/src/components/NoteForm.tsx:81-83 | The unreferenced images are the working images, in order and with their multiplicity, whose public id differs from every referenced image's public id. |
| `NoteEditor.DeleteEach` | client/src/components/NoteForm.tsx:86-90 | The save-time deletes never edit the markdown or the pending list. An image is removed, every copy of it, exactly when its public id was asked for and that delete succeeded. Every other image stays, as often as it occurred and in order. |
| `NoteEditor.Submit` | client/src/components/NoteForm.tsx:74-103 | The submitted note has the local markdown unchanged and the working images whose url occurs in it, in order and with their multiplicity, so every saved image's url is in the saved markdown. The delete requests are the unreferenced images' public ids, one per image and in order. Afterwards the editor keeps exactly the images whose delete was not requested or failed. The markdown is not edited, and the pending key is cleared. |
| `NoteEditor.SaveSplitsImages` | client/src/components/NoteForm.tsx:77-83 | Referenced and unreferenced images never overlap. When each public id belongs to one image, together they are the working list, with multiplicity. |
| `NoteEditor.SharedIdFallsThrough` | client/src/components/NoteForm.tsx:77-83 | When two images share a public id and only the first one's url occurs in the markdown, the other image is in neither the referenced nor the unreferenced list, so it is neither saved nor deleted. |
| `NoteEditor.SaveCanMissAnImage` | client/src/components/NoteForm.tsx:77-83 | For example, with images `{url "a", public_id "p"}` and `{url "b", public_id "p"}` and markdown `"see a"`, the image with url `"b"` is neither saved nor deleted. |
| `NoteEditor.ErasedReferenceIsDeletedOnSave` | client/src/components/NoteForm.tsx:74-103 | An image whose reference the user erased by hand is dropped from the saved note, and its deletion is requested. |
| `NoteEditor.MountCleanup` | client/src/components/NoteForm.tsx:35-54 | Mount cleanup requests a delete for every pending id and nothing else, and changes nothing when the list is empty. It removes the key exactly when no call was rejected, whatever status the responses had. It never touches the markdown or the images. |
| `NoteEditor.UploadThenDelete` | client/src/components/NoteForm.tsx:106-187 | Uploading an image and then calling `deleteImage` on its public id with markdown stripping on restores the working images and removes the snippet. Only the inserted line breaks remain. The id stays pending. No caller in the form reaches this path. |

## Left out

- React rendering, refs, hooks, routing, the Bootstrap and react-select widgets, and the markdown preview: UI with no state logic of its own.
- The inline tag creation in the form's tag picker (client/src/components/NoteForm.tsx:221-225) and the selected-tags state: it calls `addTag` (modelled) and appends to a UI selection.
- `fetch`, the upload/delete/chat/PDF endpoints, the image service and the server (server/index.ts, server/pdfExport.ts): every network result is a parameter.
- The chat assistant (client/src/components/Chatbot.tsx), HTML/PDF export (client/src/components/Note.tsx), the loading screen and the theme switch: presentation, not consistency logic.
- JSON serialisation of local storage and the `beforeunload` listener wiring: the stored values are explicit parts of the state.
- Character units: the model's strings are sequences of Unicode characters, and the caret offsets count those characters. `selectionStart`, `selectionEnd` and `substring` count UTF-16 code units, so in text with characters outside the Basic Multilingual Plane the same number names a different position.
- `uuidV4()`: ids are parameters, with a freshness precondition where uniqueness matters.
- Concurrency: the deletes of a save and of mount cleanup are treated as settled all at once, in list order. Each transition is atomic, so the stale `localMarkdown` and `localImages` captured by the async handlers across an `await` are not modelled. For the save-time deletes this makes no difference, since their ids come from the same snapshot.
- The regex engine itself: the escaped url pattern is modelled by its meaning, a left-to-right scan that matches the url literally, and not by an interpreter of regular expressions.
- `MarkdownImages.StripRemovesExactlyTheRefs`: characterises the replace only for markdown that cuts unambiguously into plain text without `!` and references whose alt has no `!` or `]` and whose url has no `!` or `)`; `StripRefs` itself is defined for every input.
- `NoteEditor.UploadThenDelete`: stated only for markdown without a `!`, for names and urls without the pattern's delimiters, and for a public id not already in the working list.
- `NoteEditor.SaveSplitsImages`: the covering half needs each public id to name one image. Without that, `NoteEditor.SaveCanMissAnImage` shows the gap.
- `NoteEditor.ErasedReferenceIsDeletedOnSave`: assumes each public id names one image, for the same reason.
- `NoteStore.ResolveChosenTags`: the round trip holds only when the chosen tags appear in registry order. The picker keeps selection order, and resolution always returns registry order.

=== FILE: markdown_images.dfy ===
/** The text edits the editor makes on a note's markdown for images: splicing
    an `![name](url)` snippet in at the caret, and removing every reference to
    one url with the global replace of
    `!\[[^\]]*\]\(<url, metacharacters escaped>\)\n?`. */
module MarkdownImages {
  import opened Options
  import opened Seqs

  /** The markdown image reference `![alt](url)`. */
  function ImageSnippet(alt: string, url: string): string {
    "![" + alt + "](" + url + ")"
  }

  // ---------------------------------------------------------------------------
  // Insertion at the caret
  // ---------------------------------------------------------------------------

  /** The textarea's `selectionStart` and `selectionEnd`. */
  datatype Caret = Caret(start: int, end: int)

  function Clamp(i: int, len: nat): (r: nat)
    ensures r <= len
    ensures 0 <= i <= len ==> r == i
  {
    if i < 0 then 0 else if i > len then len else i
  }

  /** JavaScript's `s.substring(from, to)`: both bounds are clamped into the
      string and swapped when out of order. */
  function JsSubstring(s: string, from: int, to: int): (r: string)
    ensures 0 <= from <= to <= |s| ==> r == s[from..to]
    ensures IsSubstring(r, s)
  {
    var a := Clamp(from, |s|);
    var b := Clamp(to, |s|);
    var lo := if a <= b then a else b;
    var hi := if a <= b then b else a;
    SubstringOfConcat(s[..lo], s[lo..hi], s[hi..]);
    assert s == s[..lo] + s[lo..hi] + s[hi..];
    s[lo..hi]
  }

  /** The markdown after an upload: with a caret, the snippet replaces the
      selection, padded by blank lines on both sides; without one it goes on
      a new line at the end. */
  function InsertSnippet(md: string, snippet: string, caret: Option<Caret>): (r: string)
    ensures IsSubstring(snippet, r)
    ensures caret.None? ==> r == md + "\n" + snippet
    ensures caret.Some? && 0 <= caret.value.start <= caret.value.end <= |md| ==>
              r == md[..caret.value.start] + "\n\n" + snippet + "\n\n" + md[caret.value.end..]
  {
    match caret
    case Some(c) =>
      var before := JsSubstring(md, 0, c.start) + "\n\n";
      var after := "\n\n" + JsSubstring(md, c.end, |md|);
      SubstringOfConcat(before, snippet, after);
      before + snippet + after
    case None =>
      SubstringOfConcat(md + "\n", snippet, []);
      assert md + "\n" + snippet + [] == md + "\n" + snippet;
      md + "\n" + snippet
  }

  // ---------------------------------------------------------------------------
  // Removing the references to one url
  // ---------------------------------------------------------------------------

  /** The first index at or after `from` holding `c`. */
  function IndexOf(s: string, c: char, from: nat): (r: Option<nat>)
    ensures r.Some? ==> from <= r.value < |s| && s[r.value] == c
    ensures r.Some? ==> forall k :: from <= k < r.value ==> s[k] != c
    ensures r.None? ==> forall k :: from <= k < |s| ==> s[k] != c
    decreases |s| - from
  {
    if from >= |s| then None
    else if s[from] == c then Some(from)
    else IndexOf(s, c, from + 1)
  }

  /** The length of the match of `!\[[^\]]*\]\(url\)\n?` at the very start of
      `s`, if there is one. The alt text runs to the first `]`, since
      `[^\]]*` cannot cross one, and backtracking cannot shorten it to any
      other `]`; the url is compared literally; a newline right after the
      closing parenthesis is taken along. */
  function RefMatchLen(s: string, url: string): (r: Option<nat>)
    ensures r.Some? ==> 0 < r.value <= |s|
    ensures r.Some? ==> s[0] == '!'
  {
    if |s| < 2 || s[0] != '!' || s[1] != '[' then None
    else match IndexOf(s, ']', 2)
      case None => None
      case Some(k) =>
        var close := k + 1 + |url| + 2;
        if IsPrefix("(" + url + ")", s[k + 1..]) then
          if close < |s| && s[close] == '\n' then Some(close + 1) else Some(close)
        else None
  }

  /** `s.replace(regex, '')` with the global flag: scanning left to right,
      each match is dropped and scanning resumes after it; every other
      character is copied. */
  function StripRefs(s: string, url: string): (r: string)
    ensures |r| <= |s|
    decreases |s|
  {
    if |s| == 0 then []
    else match RefMatchLen(s, url)
      case Some(n) => StripRefs(s[n..], url)
      case None => [s[0]] + StripRefs(s[1..], url)
  }

  /** Text without a `!` is copied through untouched, since no match can
      start in it. */
  lemma {:induction false} StripKeepsBangFreeText(t: string, rest: string, url: string)
    requires '!' !in t
    ensures StripRefs(t + rest, url) == t + StripRefs(rest, url)
  {
    if |t| > 0 {
      var s := t + rest;
      BangFreeSplit(t, rest);
      StripCopiesUnmatched(s, url);
      StripKeepsBangFreeText(t[1..], rest, url);
    } else {
      assert t + rest == rest;
    }
  }

  /** The first character of bang-free text starts no match; the rest of
      it stays bang-free. */
  lemma BangFreeSplit(t: string, rest: string)
    requires '!' !in t && |t| > 0
    ensures (t + rest)[0] != '!'
    ensures (t + rest)[1..] == t[1..] + rest
    ensures '!' !in t[1..]
    ensures forall x: string :: [(t + rest)[0]] + (t[1..] + x) == t + x
  {
    assert t[0] in t;
    assert forall c :: c in t[1..] ==> c in t;
    assert t == [t[0]] + t[1..];
  }

  /** Markdown without a `!` has no image reference to remove. */
  lemma StripBangFreeIsIdentity(s: string, url: string)
    requires '!' !in s
    ensures StripRefs(s, url) == s
  {
    StripKeepsBangFreeText(s, [], url);
    assert s + [] == s;
  }

  /** In a snippet the alt text ends at the first `]` after `![`. */
  lemma AltEndsAtFirstBracket(alt: string, after: string)
    requires ']' !in alt
    ensures IndexOf("![" + alt + "]" + after, ']', 2) == Some(2 + |alt|)
  {
    var s := "![" + alt + "]" + after;
    var k := 2 + |alt|;
    assert s[k] == ']';
    forall j | 2 <= j < k ensures s[j] != ']' {
      assert s[j] == alt[j - 2];
      assert alt[j - 2] in alt;
    }
    var found := IndexOf(s, ']', 2);
    assert found.Some?;
    assert found.value == k;
  }

  /** A reference to `url` at the start is matched whole, with one following
      newline if there is one. */
  lemma RefToUrlMatches(alt: string, url: string, tail: string)
    requires ']' !in alt
    ensures RefMatchLen(ImageSnippet(alt, url) + tail, url)
         == Some(|ImageSnippet(alt, url)| + if |tail| > 0 && tail[0] == '\n' then 1 else 0)
  {
    SnippetLayout(alt, url, tail);
    AltEndsAtFirstBracket(alt, "(" + url + ")" + tail);
  }

  /** Where the parts of a reference followed by `tail` sit. */
  lemma SnippetLayout(alt: string, url: string, tail: string)
    ensures
      var s := ImageSnippet(alt, url) + tail;
      var k := 2 + |alt|;
      && s == "![" + alt + "]" + ("(" + url + ")" + tail)
      && |s| >= 2 && s[0] == '!' && s[1] == '['
      && s[k + 1..] == "(" + url + ")" + tail
      && IsPrefix("(" + url + ")", s[k + 1..])
      && k + 1 + |url| + 2 == |ImageSnippet(alt, url)|
      && s[|ImageSnippet(alt, url)|..] == tail
  {
    var s := ImageSnippet(alt, url) + tail;
    var k := 2 + |alt|;
    assert s == "![" + alt + "]" + ("(" + url + ")" + tail);
    assert s[k + 1..] == "(" + url + ")" + tail;
    assert s[k + 1..][..|url| + 2] == "(" + url + ")";
  }

  /** The parenthesised url of a reference to `other` does not begin with
      the parenthesised `url`, provided neither contains `)`. */
  lemma OtherUrlIsNoPrefix(other: string, url: string, tail: string)
    requires ')' !in other && ')' !in url && other != url
    ensures !IsPrefix("(" + url + ")", "(" + other + ")" + tail)
  {
    var lit := "(" + url + ")";
    var after := "(" + other + ")" + tail;
    if |lit| <= |after| {
      var j: nat;
      if |url| < |other| {
        j := |url| + 1;
        assert after[j] == other[|url|] && lit[j] == ')';
        assert other[|url|] in other;
      } else if |url| > |other| {
        j := |other| + 1;
        assert after[j] == ')' && lit[j] == url[|other|];
        assert url[|other|] in url;
      } else {
        assert exists m :: 0 <= m < |url| && url[m] != other[m];
        var m :| 0 <= m < |url| && url[m] != other[m];
        j := m + 1;
        assert after[j] == other[m] && lit[j] == url[m];
      }
      assert after[..|lit|][j] != lit[j];
    }
  }

  /** A reference to another url is not matched at its `!`, provided neither
      url contains `)`. */
  lemma RefToOtherUrlDoesNotMatch(alt: string, other: string, url: string, tail: string)
    requires ']' !in alt && ')' !in other && ')' !in url && other != url
    ensures RefMatchLen(ImageSnippet(alt, other) + tail, url).None?
  {
    var s := ImageSnippet(alt, other) + tail;
    var k := 2 + |alt|;
    assert s == "![" + alt + "]" + ("(" + other + ")" + tail);
    AltEndsAtFirstBracket(alt, "(" + other + ")" + tail);
    assert s[k + 1..] == "(" + other + ")" + tail;
    OtherUrlIsNoPrefix(other, url, tail);
  }

  /** A reference to `url` is removed together with its newline. */
  lemma StripRefToUrl(alt: string, nlText: string, tail: string, url: string)
    requires ']' !in alt
    requires nlText == "\n" || (nlText == "" && !StartsWithNewline(tail))
    ensures StripRefs(ImageSnippet(alt, url) + nlText + tail, url) == StripRefs(tail, url)
  {
    var s := ImageSnippet(alt, url) + (nlText + tail);
    assert ImageSnippet(alt, url) + nlText + tail == s;
    RefToUrlMatches(alt, url, nlText + tail);
    var n := |ImageSnippet(alt, url) + nlText|;
    assert RefMatchLen(s, url) == Some(n);
    assert s[n..] == tail;
  }

  /** After its `!`, a reference has no `!` when neither its alt nor its url
      has one. */
  lemma RefBodyIsBangFree(alt: string, u: string, nlText: string)
    requires '!' !in alt && '!' !in u && '!' !in nlText
    ensures '!' !in "[" + alt + "](" + u + ")" + nlText
  {
  }

  /** A reference, its newline text and what follows, cut after the `!`. */
  lemma RefLayout(alt: string, u: string, nlText: string, x: string)
    ensures ImageSnippet(alt, u) + nlText + x == ['!'] + (("[" + alt + "](" + u + ")" + nlText) + x)
    ensures ImageSnippet(alt, u) + nlText + x == ImageSnippet(alt, u) + (nlText + x)
  {
  }

  /** Where no match starts, the first character is copied. */
  lemma StripCopiesUnmatched(s: string, url: string)
    requires |s| > 0 && RefMatchLen(s, url).None?
    ensures StripRefs(s, url) == [s[0]] + StripRefs(s[1..], url)
  {
  }

  /** A reference to another url is copied whole. */
  lemma StripRefToOtherUrl(alt: string, u: string, nlText: string, tail: string, url: string)
    requires '!' !in alt && ']' !in alt && '!' !in u && ')' !in u && ')' !in url && u != url
    requires '!' !in nlText
    ensures StripRefs(ImageSnippet(alt, u) + nlText + tail, url)
         == ImageSnippet(alt, u) + nlText + StripRefs(tail, url)
  {
    var body := "[" + alt + "](" + u + ")" + nlText;
    var s := ImageSnippet(alt, u) + nlText + tail;
    RefBodyIsBangFree(alt, u, nlText);
    RefLayout(alt, u, nlText, tail);
    RefLayout(alt, u, nlText, StripRefs(tail, url));
    RefToOtherUrlDoesNotMatch(alt, u, url, nlText + tail);
    StripCopiesUnmatched(s, url);
    assert s[1..] == body + tail;
    StripKeepsBangFreeText(body, tail, url);
  }

  // ---------------------------------------------------------------------------
  // A reference characterisation of StripRefs
  // ---------------------------------------------------------------------------

  /** Markdown cut into plain text and image references; a reference may be
      followed by one newline. */
  datatype Segment = Text(text: string) | Ref(alt: string, url: string, newline: bool)

  function RenderSegment(seg: Segment): string {
    match seg
    case Text(t) => t
    case Ref(alt, u, nl) => ImageSnippet(alt, u) + (if nl then "\n" else "")
  }

  function Render(segs: seq<Segment>): string {
    if |segs| == 0 then [] else RenderSegment(segs[0]) + Render(segs[1..])
  }

  /** The segment survives removing the references to `url`. */
  function KeptFor(url: string): Segment -> bool {
    (seg: Segment) => !(seg.Ref? && seg.url == url)
  }

  predicate StartsWithNewline(s: string) {
    |s| > 0 && s[0] == '\n'
  }

  /** One segment, followed by the text `following`, cannot be misread:
      plain text has no `!`, an alt text has no `!` or `]`, a url has no `!`
      or `)`, and a reference to `url` written without its newline is not
      followed by one (the regex would take it along). */
  predicate SegmentUnambiguous(seg: Segment, url: string, following: string) {
    match seg
    case Text(t) => '!' !in t
    case Ref(alt, u, nl) =>
      && '!' !in alt && ']' !in alt && '!' !in u && ')' !in u
      && (u == url && !nl ==> !StartsWithNewline(following))
  }

  predicate Unambiguous(segs: seq<Segment>, url: string)
    decreases |segs|
  {
    |segs| == 0 ||
    (SegmentUnambiguous(segs[0], url, Render(segs[1..])) && Unambiguous(segs[1..], url))
  }

  /** Removing the references to `url` drops exactly the `url` reference
      segments (with their newline) and copies everything else, references to
      other urls included, in place. */
  lemma {:induction false} StripRemovesExactlyTheRefs(segs: seq<Segment>, url: string)
    requires ')' !in url
    requires Unambiguous(segs, url)
    ensures StripRefs(Render(segs), url) == Render(Filter(segs, KeptFor(url)))
  {
    if |segs| == 0 {
    } else {
      var rest := segs[1..];
      StripRemovesExactlyTheRefs(rest, url);
      var tail := Render(rest);
      assert Render(segs) == RenderSegment(segs[0]) + tail;
      var kept := Filter(rest, KeptFor(url));
      if KeptFor(url)(segs[0]) {
        assert Filter(segs, KeptFor(url)) == [segs[0]] + kept;
        assert ([segs[0]] + kept)[1..] == kept;
      } else {
        assert Filter(segs, KeptFor(url)) == kept;
      }
      match segs[0]
      case Text(t) =>
        StripKeepsBangFreeText(t, tail, url);
      case Ref(alt, u, nl) =>
        var nlText: string := if nl then "\n" else "";
        assert RenderSegment(segs[0]) == ImageSnippet(alt, u) + nlText;
        if u == url {
          StripRefToUrl(alt, nlText, tail, url);
        } else {
          StripRefToOtherUrl(alt, u, nlText, tail, url);
        }
    }
  }

  /** A `!` not followed by `[` starts no match and is copied. */
  lemma StripSkipsLoneBang(t: string, url: string)
    requires |t| > 0 && t[0] != '['
    ensures StripRefs(['!'] + t, url) == ['!'] + StripRefs(t, url)
  {
    var s := ['!'] + t;
    assert s[1] == t[0];
    assert RefMatchLen(s, url).None?;
    assert s[1..] == t;
  }

  lemma LeftoverLayout(alt: string, alt2: string, url: string)
    requires '!' !in alt2 && '!' !in url
    ensures "!" + ImageSnippet(alt, url) + ("[" + alt2 + "](" + url + ")")
         == [ '!' ] + (ImageSnippet(alt, url) + "" + ("[" + alt2 + "](" + url + ")"))
    ensures ImageSnippet(alt2, url) == [ '!' ] + ("[" + alt2 + "](" + url + ")")
    ensures (ImageSnippet(alt, url) + "" + ("[" + alt2 + "](" + url + ")"))[0] == '!'
    ensures '!' !in "[" + alt2 + "](" + url + ")"
  {
  }

  /** One pass is not a fixpoint: removing a reference can join the text on
      either side of it into a new reference, which stays. A `!` just before
      a reference to `url`, and `[alt2](url)` just after it, leave a whole new
      reference to `url` behind. */
  lemma StripCanLeaveAReference(alt: string, alt2: string, url: string)
    requires ']' !in alt && '!' !in alt2 && '!' !in url
    ensures StripRefs("!" + ImageSnippet(alt, url) + ("[" + alt2 + "](" + url + ")"), url)
         == ImageSnippet(alt2, url)
  {
    var rest := "[" + alt2 + "](" + url + ")";
    LeftoverLayout(alt, alt2, url);
    StripSkipsLoneBang(ImageSnippet(alt, url) + "" + rest, url);
    StripRefToUrl(alt, "", rest, url);
    StripBangFreeIsIdentity(rest, url);
  }
}

=== FILE: note_editor.dfy ===
/** The image bookkeeping of the note form (`NoteForm.tsx`): the working
    markdown and image list, and the browser-wide `tempUploads` list of
    uploads not yet saved. Network replies are parameters; every transition is
    a pure function from one editor state to the next. */
module NoteEditor {
  import opened Options
  import opened Seqs
  import opened NoteStore
  import opened MarkdownImages

  /** `localMarkdown`, `localImages`, and the `tempUploads` storage key:
      `None` when the key is absent, else the public ids it lists. */
  datatype EditorState = EditorState(
    markdown: string,
    images: seq<Image>,
    pendingUploads: Option<seq<string>>)

  /** `JSON.parse(localStorage.getItem("tempUploads") || "[]")` */
  function PendingIds(s: EditorState): seq<string> {
    OrElse(s.pendingUploads, [])
  }

  /** Every write to the key stores a non-empty list, so the key is absent
      exactly when nothing is pending. */
  predicate PendingKeyWellFormed(s: EditorState) {
    s.pendingUploads.None? || |s.pendingUploads.value| > 0
  }

  // ---------------------------------------------------------------------------
  // Unsaved work
  // ---------------------------------------------------------------------------

  /** The `beforeunload` test: the markdown was edited, or the pending key is
      set. */
  function HasUnsavedWork(s: EditorState, savedMarkdown: string): (r: bool)
    ensures PendingKeyWellFormed(s) ==>
              (r <==> s.markdown != savedMarkdown || |PendingIds(s)| > 0)
  {
    s.markdown != savedMarkdown || s.pendingUploads.Some?
  }

  // ---------------------------------------------------------------------------
  // Upload
  // ---------------------------------------------------------------------------

  /** The upload endpoint's answer: a failure (error status, network error,
      or a body that is not JSON) or the stored image. */
  datatype UploadReply = UploadFailed | Uploaded(url: string, publicId: string)

  /** `handleFileChange`. Nothing happens without a file or when the upload
      fails; otherwise the image is appended to the working list, its public
      id to the pending list, and its snippet is spliced into the markdown. */
  function Upload(s: EditorState, fileName: Option<string>, reply: UploadReply, caret: Option<Caret>): (r: EditorState)
    ensures fileName.None? || reply.UploadFailed? ==> r == s
    ensures fileName.Some? && reply.Uploaded? ==>
              && r.images == s.images + [Image(reply.url, reply.publicId)]
              && PendingIds(r) == PendingIds(s) + [reply.publicId]
              && r.markdown == InsertSnippet(s.markdown, ImageSnippet(fileName.value, reply.url), caret)
              && IsSubstring(reply.url, r.markdown)
    ensures PendingKeyWellFormed(s) ==> PendingKeyWellFormed(r)
  {
    if fileName.None? || reply.UploadFailed? then s
    else
      var snippet := ImageSnippet(fileName.value, reply.url);
      var md := InsertSnippet(s.markdown, snippet, caret);
      UrlInSnippetInText(fileName.value, reply.url, md);
      EditorState(md, s.images + [Image(reply.url, reply.publicId)],
                  Some(PendingIds(s) + [reply.publicId]))
  }

  /** A text that contains a snippet contains its url. */
  lemma {:induction false} UrlInSnippetInText(alt: string, url: string, text: string)
    requires IsSubstring(ImageSnippet(alt, url), text)
    ensures IsSubstring(url, text)
    decreases |text|
  {
    var snippet := ImageSnippet(alt, url);
    if IsPrefix(snippet, text) {
      assert text == "![" + alt + "](" + url + ")" + text[|snippet|..];
      SubstringOfConcat("![" + alt + "](", url, ")" + text[|snippet|..]);
      assert "![" + alt + "](" + url + (")" + text[|snippet|..]) == text;
    } else {
      UrlInSnippetInText(alt, url, text[1..]);
      assert IsSubstring(url, text[1..]);
      if !IsPrefix(url, text) {
        assert IsSubstring(url, text);
      }
    }
  }

  // ---------------------------------------------------------------------------
  // Explicit delete
  // ---------------------------------------------------------------------------

  /** `localImages.find(img => img.public_id === public_id)` */
  function FindImage(images: seq<Image>, publicId: string): (r: Option<Image>)
    ensures r.None? <==> forall img :: img in images ==> img.publicId != publicId
    ensures r.Some? ==> r.value in images && r.value.publicId == publicId
    ensures r.Some? ==> exists k :: 0 <= k < |images| && images[k] == r.value
                          && forall j :: 0 <= j < k ==> images[j].publicId != publicId
  {
    if |images| == 0 then None
    else if images[0].publicId == publicId then Some(images[0])
    else
      var r := FindImage(images[1..], publicId);
      assert forall img :: img in images[1..] ==> img in images;
      assert forall img :: img in images ==> img == images[0] || img in images[1..];
      if r.Some? then
        var k :| 0 <= k < |images[1..]| && images[1..][k] == r.value
                 && forall j :: 0 <= j < k ==> images[1..][j].publicId != publicId;
        assert images[k + 1] == r.value;
        assert forall j :: 0 <= j < k + 1 ==> images[j].publicId != publicId by {
          forall j | 0 <= j < k + 1 ensures images[j].publicId != publicId {
            if j > 0 { assert images[j] == images[1..][j - 1]; }
          }
        }
        r
      else r
  }

  /** `image => image.public_id !== public_id` */
  function OtherPublicId(publicId: string): Image -> bool {
    (img: Image) => img.publicId != publicId
  }

  /** `deleteImage(public_id, updateMarkdown)` once the delete endpoint has
      answered: `ok` is false for an error status or a network error. On
      success, and if some working image has that public id, every such
      image is dropped and, when asked, every reference to the url of the
      first one is stripped from the markdown. The pending list is not
      touched. */
  function DeleteImage(s: EditorState, publicId: string, updateMarkdown: bool, ok: bool): (r: EditorState)
    ensures r.pendingUploads == s.pendingUploads
    ensures !ok ==> r == s
    ensures (forall img :: img in s.images ==> img.publicId != publicId) ==> r == s
    ensures ok ==> forall img :: img in r.images <==> img in s.images && img.publicId != publicId
    ensures ok ==> forall img :: multiset(r.images)[img] == if img.publicId == publicId then 0 else multiset(s.images)[img]
    ensures SubsequenceOf(r.images, s.images)
    ensures !updateMarkdown ==> r.markdown == s.markdown
    ensures ok && updateMarkdown ==>
              match FindImage(s.images, publicId)
              case Some(img) => r.markdown == StripRefs(s.markdown, img.url)
              case None => r.markdown == s.markdown
  {
    if !ok then SubsequenceOfSelf(s.images); s
    else match FindImage(s.images, publicId)
      case None =>
        SubsequenceOfSelf(s.images);
        assert forall img: Image :: img.publicId == publicId ==> img !in s.images;
        s
      case Some(img) =>
        FilterCount(s.images, OtherPublicId(publicId));
        s.(images := Filter(s.images, OtherPublicId(publicId)),
           markdown := if updateMarkdown then StripRefs(s.markdown, img.url) else s.markdown)
  }

  // ---------------------------------------------------------------------------
  // Save
  // ---------------------------------------------------------------------------

  /** `image => localMarkdown.includes(image.url)` */
  function MentionedIn(markdown: string): Image -> bool {
    (img: Image) => IsSubstring(img.url, markdown)
  }

  /** `image => !referenced.some(ref => ref.public_id === image.public_id)` */
  function NotSharingIdWith(referenced: seq<Image>): Image -> bool {
    (img: Image) => forall ref :: ref in referenced ==> ref.publicId != img.publicId
  }

  function ReferencedImages(s: EditorState): (r: seq<Image>)
    ensures forall img :: img in r <==> img in s.images && IsSubstring(img.url, s.markdown)
    ensures forall img :: multiset(r)[img] == if IsSubstring(img.url, s.markdown) then multiset(s.images)[img] else 0
    ensures SubsequenceOf(r, s.images)
  {
    FilterCount(s.images, MentionedIn(s.markdown));
    Filter(s.images, MentionedIn(s.markdown))
  }

  function UnreferencedImages(s: EditorState): (r: seq<Image>)
    ensures forall img :: img in r <==>
              (img in s.images && forall ref :: ref in ReferencedImages(s) ==> ref.publicId != img.publicId)
    ensures forall img :: multiset(r)[img] ==
              if forall ref :: ref in ReferencedImages(s) ==> ref.publicId != img.publicId
              then multiset(s.images)[img] else 0
    ensures SubsequenceOf(r, s.images)
  {
    FilterCount(s.images, NotSharingIdWith(ReferencedImages(s)));
    Filter(s.images, NotSharingIdWith(ReferencedImages(s)))
  }

  /** One delete reply per public id: `true` when the endpoint answered with
      success. */
  type DeleteReplies = string -> bool

  /** The delete calls of a save, settled in order, none touching the markdown. */
  function DeleteEach(s: EditorState, publicIds: seq<string>, replies: DeleteReplies): (r: EditorState)
    ensures r.markdown == s.markdown
    ensures r.pendingUploads == s.pendingUploads
    ensures SubsequenceOf(r.images, s.images)
    ensures forall img :: img in r.images ==> img in s.images
    ensures forall img :: img in r.images <==>
              img in s.images && !(img.publicId in publicIds && replies(img.publicId))
    ensures forall img :: multiset(r.images)[img] ==
              if img.publicId in publicIds && replies(img.publicId) then 0 else multiset(s.images)[img]
    decreases |publicIds|
  {
    if |publicIds| == 0 then SubsequenceOfSelf(s.images); s
    else
      var next := DeleteImage(s, publicIds[0], false, replies(publicIds[0]));
      var r := DeleteEach(next, publicIds[1..], replies);
      SubsequenceTransitive(r.images, next.images, s.images);
      assert forall id :: id in publicIds <==> id == publicIds[0] || id in publicIds[1..];
      r
  }

  /** What a save hands on: the note data for the repository, the delete
      calls it issues, and the editor state once they have settled. */
  datatype Submission = Submission(note: NoteData, deleteRequests: seq<string>, editor: EditorState)

  /** `handleSubmit`: delete the unreferenced images (without editing the
      markdown), submit the markdown unchanged with only the referenced
      images, and clear the pending key. */
  function Submit(s: EditorState, title: string, tags: seq<Tag>, replies: DeleteReplies): (r: Submission)
    ensures r.note.title == title && r.note.tags == tags
    ensures r.note.markdown == s.markdown
    ensures forall img :: img in r.note.images <==> img in s.images && IsSubstring(img.url, s.markdown)
    ensures SubsequenceOf(r.note.images, s.images)
    ensures forall img :: img in r.note.images ==> IsSubstring(img.url, r.note.markdown)
    ensures forall img :: multiset(r.note.images)[img] ==
              if IsSubstring(img.url, s.markdown) then multiset(s.images)[img] else 0
    ensures |r.deleteRequests| == |UnreferencedImages(s)|
    ensures forall i :: 0 <= i < |r.deleteRequests| ==>
              r.deleteRequests[i] == UnreferencedImages(s)[i].publicId
    ensures r.editor.markdown == s.markdown
    ensures forall img :: img in r.editor.images <==>
              img in s.images && !(img.publicId in r.deleteRequests && replies(img.publicId))
    ensures forall img :: multiset(r.editor.images)[img] ==
              if img.publicId in r.deleteRequests && replies(img.publicId) then 0 else multiset(s.images)[img]
    ensures SubsequenceOf(r.editor.images, s.images)
    ensures r.editor.pendingUploads.None?
  {
    var referenced := ReferencedImages(s);
    var unreferenced := UnreferencedImages(s);
    var requests := PublicIds(unreferenced);
    var settled := DeleteEach(s, requests, replies);
    Submission(NoteData(title, s.markdown, tags, referenced), requests, settled.(pendingUploads := None))
  }

  /** The public ids of `images`, one per image, in order. */
  function PublicIds(images: seq<Image>): (r: seq<string>)
    ensures |r| == |images|
    ensures forall i :: 0 <= i < |images| ==> r[i] == images[i].publicId
  {
    Map(images, (img: Image) => img.publicId)
  }

  /** Two working images with the same public id are the same image. */
  ghost predicate PublicIdsIdentify(images: seq<Image>) {
    forall a, b :: a in images && b in images && a.publicId == b.publicId ==> a == b
  }

  /** Referenced and unreferenced never overlap, and when public ids
      identify images they split the working list between them. */
  lemma SaveSplitsImages(s: EditorState)
    ensures forall img :: !(img in ReferencedImages(s) && img in UnreferencedImages(s))
    ensures PublicIdsIdentify(s.images) ==>
              multiset(ReferencedImages(s)) + multiset(UnreferencedImages(s)) == multiset(s.images)
  {
    if PublicIdsIdentify(s.images) {
      var referenced := ReferencedImages(s);
      forall img | img in s.images
        ensures NotSharingIdWith(referenced)(img) == !MentionedIn(s.markdown)(img)
      {
        if !MentionedIn(s.markdown)(img) {
          forall ref | ref in referenced ensures ref.publicId != img.publicId {
            assert ref in s.images && MentionedIn(s.markdown)(ref);
          }
        }
      }
      FilterPartition(s.images, MentionedIn(s.markdown), NotSharingIdWith(referenced));
    }
  }

  /** Without that, an image can fall through both: its url is not in the
      markdown, yet another image with its public id is, so it is neither
      saved nor deleted. */
  lemma SaveCanMissAnImage()
    ensures
      var s := EditorState("see a", [Image("a", "p"), Image("b", "p")], None);
      && Image("b", "p") !in ReferencedImages(s)
      && Image("b", "p") !in UnreferencedImages(s)
  {
    var s := EditorState("see a", [Image("a", "p"), Image("b", "p")], None);
    SubstringOfConcat("see ", "a", "");
    assert "see " + "a" + "" == s.markdown;
    MissingElementNoSubstring('b', "b", s.markdown);
    SharedIdFallsThrough(s, Image("a", "p"), Image("b", "p"));
  }

  /** An image whose url is not in the markdown, sharing its public id with
      one whose url is, lands in neither list. */
  lemma SharedIdFallsThrough(s: EditorState, a: Image, b: Image)
    requires a in s.images && IsSubstring(a.url, s.markdown)
    requires a.publicId == b.publicId && !IsSubstring(b.url, s.markdown)
    ensures b !in ReferencedImages(s) && b !in UnreferencedImages(s)
  {
    assert a in ReferencedImages(s);
  }

  // ---------------------------------------------------------------------------
  // Cleanup on mount
  // ---------------------------------------------------------------------------

  /** How one `fetch` settles: with a response of any status, or rejected
      (network failure). `Promise.all` rejects only in the second case. */
  datatype FetchOutcome = Responded(ok: bool) | Rejected

  datatype Cleanup = Cleanup(deleteRequests: seq<string>, editor: EditorState)

  /** The mount effect: when the pending list is non-empty, delete every id on
      it; the key is removed only if no call was rejected, whatever status
      the responses carried. The working markdown and images are untouched. */
  function MountCleanup(s: EditorState, outcome: string -> FetchOutcome): (r: Cleanup)
    ensures r.deleteRequests == PendingIds(s)
    ensures r.editor.markdown == s.markdown && r.editor.images == s.images
    ensures |PendingIds(s)| == 0 ==> r.editor == s
    ensures |PendingIds(s)| > 0 ==>
              (r.editor.pendingUploads.None? <==> forall id :: id in PendingIds(s) ==> outcome(id).Responded?)
    ensures r.editor.pendingUploads.Some? ==> r.editor.pendingUploads == s.pendingUploads
    ensures PendingKeyWellFormed(s) ==> PendingKeyWellFormed(r.editor)
  {
    var pending := PendingIds(s);
    if |pending| > 0 then
      var settled := forall i | 0 <= i < |pending| :: outcome(pending[i]).Responded?;
      assert settled <==> forall id :: id in pending ==> outcome(id).Responded?;
      Cleanup(pending, if settled then s.(pendingUploads := None) else s)
    else Cleanup([], s)
  }

  // ---------------------------------------------------------------------------
  // Sessions
  // ---------------------------------------------------------------------------

  /** The uploaded image is the one a delete of its public id finds, and
      deleting it leaves the working list as it was before the upload. */
  lemma UploadedImageIsFoundAndDropped(images: seq<Image>, added: Image)
    requires forall img :: img in images ==> img.publicId != added.publicId
    ensures FindImage(images + [added], added.publicId) == Some(added)
    ensures Filter(images + [added], OtherPublicId(added.publicId)) == images
  {
    var found := FindImage(images + [added], added.publicId);
    assert added in images + [added];
    assert found.value in images + [added];
    FilterConcat(images, [added], OtherPublicId(added.publicId));
    FilterKeepsAll(images, OtherPublicId(added.publicId));
    assert [added][1..] == [];
  }

  /** Stripping a snippet appended on its own line leaves that line break. */
  lemma StripAppendedSnippet(md: string, name: string, url: string)
    requires '!' !in md && '!' !in name && ']' !in name && '!' !in url && ')' !in url
    ensures StripRefs(md + "\n" + ImageSnippet(name, url), url) == md + "\n"
  {
    var segs := [Text(md + "\n"), Ref(name, url, false)];
    assert segs[1..][1..] == [];
    assert Render(segs[1..]) == ImageSnippet(name, url);
    assert Render(segs) == md + "\n" + ImageSnippet(name, url);
    assert '!' !in md + "\n";
    StripRemovesExactlyTheRefs(segs, url);
    assert Filter(segs, KeptFor(url)) == [Text(md + "\n")];
    assert [Text(md + "\n")][1..] == [];
  }

  /** How three segments render. */
  lemma RenderThree(a: Segment, b: Segment, c: Segment)
    ensures Render([a, b, c]) == RenderSegment(a) + (RenderSegment(b) + RenderSegment(c))
    ensures Render([b, c]) == RenderSegment(b) + RenderSegment(c)
  {
    var segs := [a, b, c];
    assert segs[1..] == [b, c];
    assert [b, c][1..] == [c];
    assert [c][1..] == [];
    assert Render([c]) == RenderSegment(c) + [];
    assert RenderSegment(c) + [] == RenderSegment(c);
  }

  /** A reference to `url` with its newline, between two pieces of text. */
  lemma RefBetweenTexts(before: string, alt: string, url: string, after: string)
    requires '!' !in before && '!' !in after && '!' !in alt && ']' !in alt && '!' !in url && ')' !in url
    ensures
      var segs := [Text(before), Ref(alt, url, true), Text(after)];
      && Render(segs) == before + (ImageSnippet(alt, url) + "\n") + after
      && Unambiguous(segs, url)
      && Render(Filter(segs, KeptFor(url))) == before + after
  {
    var segs := [Text(before), Ref(alt, url, true), Text(after)];
    RenderThree(Text(before), Ref(alt, url, true), Text(after));
    assert segs[1..] == [Ref(alt, url, true), Text(after)];
    assert segs[1..][1..] == [Text(after)];
    assert [Text(after)][1..] == [];
    assert Unambiguous([Text(after)], url);
    assert Unambiguous(segs[1..], url);
    KeptTexts(before, alt, url, after);
  }

  lemma KeptTexts(before: string, alt: string, url: string, after: string)
    ensures Render(Filter([Text(before), Ref(alt, url, true), Text(after)], KeptFor(url))) == before + after
  {
    var segs := [Text(before), Ref(alt, url, true), Text(after)];
    assert segs[1..] == [Ref(alt, url, true), Text(after)];
    assert segs[1..][1..] == [Text(after)];
    assert [Text(after)][1..] == [];
    assert Filter([Text(after)], KeptFor(url)) == [Text(after)];
    assert Filter(segs[1..], KeptFor(url)) == [Text(after)];
    var kept := [Text(before), Text(after)];
    assert Filter(segs, KeptFor(url)) == kept;
    assert kept[1..] == [Text(after)];
    assert Render([Text(after)]) == after + [];
    assert Render(kept) == before + Render([Text(after)]);
  }

  /** Stripping a snippet spliced in at the caret leaves the three line
      breaks around it. */
  lemma StripSplicedSnippet(md: string, start: nat, end: nat, name: string, url: string)
    requires '!' !in md && '!' !in name && ']' !in name && '!' !in url && ')' !in url
    requires start <= end <= |md|
    ensures StripRefs(md[..start] + "\n\n" + ImageSnippet(name, url) + "\n\n" + md[end..], url)
         == md[..start] + "\n\n\n" + md[end..]
  {
    BangFreeSlices(md, start, end);
    SplicedLayout(md[..start], ImageSnippet(name, url), md[end..]);
    var segs := [Text(md[..start] + "\n\n"), Ref(name, url, true), Text("\n" + md[end..])];
    RefBetweenTexts(md[..start] + "\n\n", name, url, "\n" + md[end..]);
    StripRemovesExactlyTheRefs(segs, url);
  }

  /** How the spliced text is cut into segments. */
  lemma SplicedLayout(p: string, snippet: string, q: string)
    ensures (p + "\n\n") + (snippet + "\n") + ("\n" + q) == p + "\n\n" + snippet + "\n\n" + q
    ensures (p + "\n\n") + ("\n" + q) == p + "\n\n\n" + q
  {
  }

  /** Uploading an image and then calling `deleteImage` on its public id
      with stripping on removes the image and its snippet again; its id stays on the pending list, since
      the delete does not touch it. */
  lemma UploadThenDelete(s: EditorState, name: string, url: string, publicId: string, caret: Option<Caret>)
    requires '!' !in s.markdown
    requires '!' !in name && ']' !in name && '!' !in url && ')' !in url
    requires forall img :: img in s.images ==> img.publicId != publicId
    requires caret.Some? ==> 0 <= caret.value.start <= caret.value.end <= |s.markdown|
    ensures
      var r := DeleteImage(Upload(s, Some(name), Uploaded(url, publicId), caret), publicId, true, true);
      && r.images == s.images
      && PendingIds(r) == PendingIds(s) + [publicId]
      && r.markdown == match caret
                       case None => s.markdown + "\n"
                       case Some(c) => s.markdown[..c.start] + "\n\n\n" + s.markdown[c.end..]
  {
    var u := Upload(s, Some(name), Uploaded(url, publicId), caret);
    DeleteAfterUpload(s, u, Image(url, publicId));
    match caret
    case None =>
      StripAppendedSnippet(s.markdown, name, url);
    case Some(c) =>
      StripSplicedSnippet(s.markdown, c.start, c.end, name, url);
  }

  /** Deleting the image just uploaded drops it and strips its url. */
  lemma DeleteAfterUpload(s: EditorState, u: EditorState, added: Image)
    requires forall img :: img in s.images ==> img.publicId != added.publicId
    requires u.images == s.images + [added]
    ensures DeleteImage(u, added.publicId, true, true)
         == u.(images := s.images, markdown := StripRefs(u.markdown, added.url))
  {
    UploadedImageIsFoundAndDropped(s.images, added);
  }

  /** Slices of text without `!` have none either. */
  lemma BangFreeSlices(md: string, start: nat, end: nat)
    requires '!' !in md && start <= end <= |md|
    ensures '!' !in md[..start] + "\n\n" && '!' !in "\n" + md[end..]
  {
    assert forall c :: c in md[..start] ==> c in md;
    assert forall c :: c in md[end..] ==> c in md;
  }

  /** A reference the user erased by hand is caught at save: its image is not
      kept and its deletion is requested. */
  lemma ErasedReferenceIsDeletedOnSave(s: EditorState, img: Image, title: string, tags: seq<Tag>, replies: DeleteReplies)
    requires img in s.images
    requires !IsSubstring(img.url, s.markdown)
    requires PublicIdsIdentify(s.images)
    ensures img !in Submit(s, title, tags, replies).note.images
    ensures img.publicId in Submit(s, title, tags, replies).deleteRequests
  {
    forall ref | ref in ReferencedImages(s) ensures ref.publicId != img.publicId {
      assert ref in s.images && IsSubstring(ref.url, s.markdown);
    }
    assert img in UnreferencedImages(s);
  }
}

=== FILE: note_store.dfy ===
/** The note repository and tag registry of `App.tsx`: the stored collections
    are sequences, every operation is a total function from the old sequence
    to the new one, and `NotesWithTags` is the derived view that replaces tag
    ids by the tag records that still exist. */
module NoteStore {
  import opened Options
  import opened Seqs

  /** An uploaded image: where it is served from, and the handle the image
      service deletes it by. */
  datatype Image = Image(url: string, publicId: string)

  /** A tag; identity is `id`, labels may repeat. */
  datatype Tag = Tag(id: string, labelText: string)

  /** A note as persisted. `images` is `None` for a stored note that lacks the
      field (the view reads it as `note.images || []`). */
  datatype RawNote = RawNote(
    id: string,
    title: string,
    markdown: string,
    tagIds: seq<string>,
    images: Option<seq<Image>>)

  /** What the editor submits: tags as records, not ids. */
  datatype NoteData = NoteData(title: string, markdown: string, tags: seq<Tag>, images: seq<Image>)

  /** A note as shown. The view spreads the stored note, so `tagIds` is still
      present beside the resolved `tags`. */
  datatype Note = Note(
    id: string,
    title: string,
    markdown: string,
    tagIds: seq<string>,
    tags: seq<Tag>,
    images: seq<Image>)

  function NoteId(n: RawNote): string { n.id }

  function TagId(t: Tag): string { t.id }

  /** `tags.map(tag => tag.id)` */
  function TagIdsOf(tags: seq<Tag>): seq<string> { Map(tags, TagId) }

  ghost predicate UniqueIds(notes: seq<RawNote>) { UniqueBy(notes, NoteId) }

  ghost predicate UniqueTagIds(tags: seq<Tag>) { UniqueBy(tags, TagId) }

  /** No stored note carries `id`. */
  predicate IdIsFresh(notes: seq<RawNote>, id: string) {
    forall n :: n in notes ==> n.id != id
  }

  // ---------------------------------------------------------------------------
  // Resolution (the `notesWithTags` memo)
  // ---------------------------------------------------------------------------

  /** `tag => note.tagIds.includes(tag.id)` */
  function ListedIn(tagIds: seq<string>): Tag -> bool {
    (t: Tag) => t.id in tagIds
  }

  /** The registry's tags that `tagIds` mentions, in registry order; ids with
      no tag in the registry are dropped. */
  function ResolveTags(registry: seq<Tag>, tagIds: seq<string>): (r: seq<Tag>)
    ensures SubsequenceOf(r, registry)
    ensures forall t :: t in r <==> t in registry && t.id in tagIds
    ensures forall t :: multiset(r)[t] == if t.id in tagIds then multiset(registry)[t] else 0
  {
    FilterCount(registry, ListedIn(tagIds));
    Filter(registry, ListedIn(tagIds))
  }

  function ResolveNote(n: RawNote, registry: seq<Tag>): (r: Note)
    ensures r.id == n.id && r.title == n.title && r.markdown == n.markdown
    ensures r.tagIds == n.tagIds
    ensures n.images.None? ==> r.images == []
    ensures n.images.Some? ==> r.images == n.images.value
    ensures SubsequenceOf(r.tags, registry)
    ensures forall t :: t in r.tags <==> t in registry && t.id in n.tagIds
    ensures forall t :: multiset(r.tags)[t] == if t.id in n.tagIds then multiset(registry)[t] else 0
  {
    Note(n.id, n.title, n.markdown, n.tagIds, ResolveTags(registry, n.tagIds), OrElse(n.images, []))
  }

  /** The view of every stored note, position by position. */
  function NotesWithTags(notes: seq<RawNote>, registry: seq<Tag>): (r: seq<Note>)
    ensures |r| == |notes|
    ensures forall i :: 0 <= i < |notes| ==> r[i] == ResolveNote(notes[i], registry)
  {
    Map(notes, (n: RawNote) => ResolveNote(n, registry))
  }

  // ---------------------------------------------------------------------------
  // Note repository
  // ---------------------------------------------------------------------------

  /** `onCreateNote`: append one note under a fresh id (the source draws it
      from `uuidV4()`). */
  function CreateNote(notes: seq<RawNote>, data: NoteData, freshId: string): (r: seq<RawNote>)
    requires IdIsFresh(notes, freshId)
    ensures |r| == |notes| + 1
    ensures r[..|notes|] == notes
    ensures r[|notes|].id == freshId
    ensures r[|notes|].title == data.title && r[|notes|].markdown == data.markdown
    ensures |r[|notes|].tagIds| == |data.tags|
    ensures forall i :: 0 <= i < |data.tags| ==> r[|notes|].tagIds[i] == data.tags[i].id
    ensures r[|notes|].images == Some(data.images)
    ensures UniqueIds(notes) ==> UniqueIds(r)
  {
    var created := RawNote(freshId, data.title, data.markdown, TagIdsOf(data.tags), Some(data.images));
    var r := notes + [created];
    assert r[|notes|] == created;
    assert forall i :: 0 <= i < |notes| ==> r[i] == notes[i] && r[i] in notes;
    r
  }

  /** The replacement `{ ...note, ...data, tagIds, images }` for a matching note. */
  function Overwrite(id: string, data: NoteData): RawNote -> RawNote {
    (n: RawNote) => if n.id == id
         then n.(title := data.title, markdown := data.markdown,
                 tagIds := TagIdsOf(data.tags), images := Some(data.images))
         else n
  }

  /** `onUpdateNote`: overwrite the notes whose id matches, in place. */
  function UpdateNote(notes: seq<RawNote>, id: string, data: NoteData): (r: seq<RawNote>)
    ensures |r| == |notes|
    ensures forall i :: 0 <= i < |notes| ==> r[i].id == notes[i].id
    ensures forall i :: 0 <= i < |notes| && notes[i].id == id ==>
              && r[i].title == data.title && r[i].markdown == data.markdown
              && r[i].tagIds == TagIdsOf(data.tags) && r[i].images == Some(data.images)
    ensures forall i :: 0 <= i < |notes| && notes[i].id != id ==> r[i] == notes[i]
    ensures IdIsFresh(notes, id) ==> r == notes
    ensures UniqueIds(notes) ==> UniqueIds(r)
  {
    var r := Map(notes, Overwrite(id, data));
    assert IdIsFresh(notes, id) ==> forall i :: 0 <= i < |notes| ==> notes[i] in notes && r[i] == notes[i];
    r
  }

  /** `note => note.id !== id` */
  function NotId(id: string): RawNote -> bool {
    (n: RawNote) => n.id != id
  }

  /** `onDeleteNote`: drop the notes whose id matches, keeping the order of the rest. */
  function DeleteNote(notes: seq<RawNote>, id: string): (r: seq<RawNote>)
    ensures forall n :: n in r <==> n in notes && n.id != id
    ensures forall n :: multiset(r)[n] == if n.id == id then 0 else multiset(notes)[n]
    ensures SubsequenceOf(r, notes)
  {
    FilterCount(notes, NotId(id));
    Filter(notes, NotId(id))
  }

  // ---------------------------------------------------------------------------
  // Tag registry
  // ---------------------------------------------------------------------------

  /** `addTag`: append the tag as given. */
  function AddTag(tags: seq<Tag>, tag: Tag): (r: seq<Tag>)
    ensures |r| == |tags| + 1 && r[..|tags|] == tags && r[|tags|] == tag
  {
    tags + [tag]
  }

  /** `tag => tag.id === id ? { ...tag, label } : tag` */
  function Relabel(id: string, labelText: string): Tag -> Tag {
    (t: Tag) => if t.id == id then t.(labelText := labelText) else t
  }

  /** `updateTag`: rename the matching tags in place. */
  function UpdateTag(tags: seq<Tag>, id: string, labelText: string): (r: seq<Tag>)
    ensures |r| == |tags|
    ensures forall i :: 0 <= i < |tags| ==> r[i].id == tags[i].id
    ensures forall i :: 0 <= i < |tags| ==> r[i].labelText == if tags[i].id == id then labelText else tags[i].labelText
  {
    Map(tags, Relabel(id, labelText))
  }

  /** `tag => tag.id !== id` */
  function TagNotId(id: string): Tag -> bool {
    (t: Tag) => t.id != id
  }

  /** `deleteTag`: drop the matching tags, keeping the order of the rest. */
  function DeleteTag(tags: seq<Tag>, id: string): (r: seq<Tag>)
    ensures forall t :: t in r <==> t in tags && t.id != id
    ensures forall t :: multiset(r)[t] == if t.id == id then 0 else multiset(tags)[t]
    ensures SubsequenceOf(r, tags)
  {
    FilterCount(tags, TagNotId(id));
    Filter(tags, TagNotId(id))
  }

  // ---------------------------------------------------------------------------
  // Properties
  // ---------------------------------------------------------------------------

  /** Deleting an id nobody carries leaves the collection as it was. */
  lemma DeleteMissingNoteIsNoop(notes: seq<RawNote>, id: string)
    requires IdIsFresh(notes, id)
    ensures DeleteNote(notes, id) == notes
  {
    FilterKeepsAll(notes, NotId(id));
  }

  /** Deleting keeps note ids unique. */
  lemma DeleteKeepsIdsUnique(notes: seq<RawNote>, id: string)
    requires UniqueIds(notes)
    ensures UniqueIds(DeleteNote(notes, id))
  {
    FilterUniqueBy(notes, NotId(id), NoteId);
  }

  /** Deleting a note takes that id out of the collection for good. */
  lemma DeletedIdIsGone(notes: seq<RawNote>, id: string)
    ensures IdIsFresh(DeleteNote(notes, id), id)
  {
  }

  /** Renaming a tag that does not exist leaves the registry as it was. */
  lemma UpdateMissingTagIsNoop(tags: seq<Tag>, id: string, labelText: string)
    requires forall t :: t in tags ==> t.id != id
    ensures UpdateTag(tags, id, labelText) == tags
  {
    var r := UpdateTag(tags, id, labelText);
    forall i | 0 <= i < |tags| ensures r[i] == tags[i] {
      assert tags[i] in tags;
    }
  }

  /** Deleting a tag that does not exist leaves the registry as it was. */
  lemma DeleteMissingTagIsNoop(tags: seq<Tag>, id: string)
    requires forall t :: t in tags ==> t.id != id
    ensures DeleteTag(tags, id) == tags
  {
    FilterKeepsAll(tags, TagNotId(id));
  }

  /** Renaming keeps registry ids unique. */
  lemma UpdateTagKeepsIdsUnique(tags: seq<Tag>, id: string, labelText: string)
    requires UniqueTagIds(tags)
    ensures UniqueTagIds(UpdateTag(tags, id, labelText))
  {
  }

  /** Adding a tag under an id the registry does not use keeps registry ids
      unique (the form draws it from `uuidV4()`). */
  lemma AddTagKeepsIdsUnique(tags: seq<Tag>, tag: Tag)
    requires UniqueTagIds(tags)
    requires forall t :: t in tags ==> t.id != tag.id
    ensures UniqueTagIds(AddTag(tags, tag))
  {
    var r := AddTag(tags, tag);
    forall i, j | 0 <= i < j < |r| ensures r[i].id != r[j].id {
      if j == |tags| {
        assert r[i] == tags[i] && tags[i] in tags;
      } else {
        assert r[i] == tags[i] && r[j] == tags[j];
      }
    }
  }

  /** Deleting a tag keeps registry ids unique. */
  lemma DeleteTagKeepsIdsUnique(tags: seq<Tag>, id: string)
    requires UniqueTagIds(tags)
    ensures UniqueTagIds(DeleteTag(tags, id))
  {
    FilterUniqueBy(tags, TagNotId(id), TagId);
  }

  /** Renaming a tag in the registry renames it in every resolved note, and
      no note's tag ids change. */
  lemma {:induction false} RenameShowsInEveryNote(notes: seq<RawNote>, tags: seq<Tag>, id: string, labelText: string)
    ensures |NotesWithTags(notes, UpdateTag(tags, id, labelText))| == |notes|
    ensures forall i :: 0 <= i < |notes| ==>
              var after := NotesWithTags(notes, UpdateTag(tags, id, labelText))[i];
              var before := NotesWithTags(notes, tags)[i];
              && after.tags == UpdateTag(before.tags, id, labelText)
              && after.tagIds == before.tagIds == notes[i].tagIds
              && after.id == before.id && after.title == before.title
              && after.markdown == before.markdown && after.images == before.images
  {
    forall i | 0 <= i < |notes|
      ensures ResolveTags(UpdateTag(tags, id, labelText), notes[i].tagIds)
           == UpdateTag(ResolveTags(tags, notes[i].tagIds), id, labelText)
    {
      FilterMapCommute(tags, Relabel(id, labelText), ListedIn(notes[i].tagIds));
    }
  }

  /** Deleting a tag removes it from every resolved note and touches nothing
      else: no note disappears and no note's tag ids change. */
  lemma {:induction false} DeleteTagDropsItFromEveryNote(notes: seq<RawNote>, tags: seq<Tag>, id: string)
    ensures |NotesWithTags(notes, DeleteTag(tags, id))| == |notes|
    ensures forall i :: 0 <= i < |notes| ==>
              var after := NotesWithTags(notes, DeleteTag(tags, id))[i];
              var before := NotesWithTags(notes, tags)[i];
              && after.tags == DeleteTag(before.tags, id)
              && after.tagIds == before.tagIds == notes[i].tagIds
              && after.id == before.id && after.title == before.title
              && after.markdown == before.markdown && after.images == before.images
  {
    forall i | 0 <= i < |notes|
      ensures ResolveTags(DeleteTag(tags, id), notes[i].tagIds)
           == DeleteTag(ResolveTags(tags, notes[i].tagIds), id)
    {
      FilterCommute(tags, TagNotId(id), ListedIn(notes[i].tagIds));
    }
  }

  /** A newly added tag appears, at the end, in exactly the resolved notes
      whose tag ids mention it; the rest of every view is unchanged. */
  lemma {:induction false} AddTagShowsOnlyWhereListed(notes: seq<RawNote>, tags: seq<Tag>, tag: Tag)
    ensures |NotesWithTags(notes, AddTag(tags, tag))| == |notes|
    ensures forall i :: 0 <= i < |notes| ==>
              NotesWithTags(notes, AddTag(tags, tag))[i].tags
                == NotesWithTags(notes, tags)[i].tags + (if tag.id in notes[i].tagIds then [tag] else [])
  {
    forall i | 0 <= i < |notes|
      ensures ResolveTags(AddTag(tags, tag), notes[i].tagIds)
           == ResolveTags(tags, notes[i].tagIds) + (if tag.id in notes[i].tagIds then [tag] else [])
    {
      ResolveAfterAddTag(tags, tag, notes[i].tagIds);
    }
  }

  /** Resolving against the registry with one tag appended. */
  lemma ResolveAfterAddTag(tags: seq<Tag>, tag: Tag, tagIds: seq<string>)
    ensures ResolveTags(AddTag(tags, tag), tagIds)
         == ResolveTags(tags, tagIds) + (if tag.id in tagIds then [tag] else [])
  {
    FilterConcat(tags, [tag], ListedIn(tagIds));
    assert [tag][1..] == [];
  }

  /** The registry after its first tag keeps ids unique and never reuses the
      first tag's id. */
  lemma UniqueTagIdsTail(registry: seq<Tag>)
    requires |registry| > 0 && UniqueTagIds(registry)
    ensures UniqueTagIds(registry[1..])
    ensures forall t :: t in registry[1..] ==> t.id != registry[0].id
  {
    var tail := registry[1..];
    forall i, j | 0 <= i < j < |tail| ensures tail[i].id != tail[j].id {
      assert tail[i] == registry[i + 1] && tail[j] == registry[j + 1];
    }
    forall t | t in tail ensures t.id != registry[0].id {
      var k :| 0 <= k < |tail| && tail[k] == t;
      assert registry[k + 1] == t;
    }
  }

  /** Resolution step when the first registry tag is the first chosen one. */
  lemma ResolveHeadChosen(registry: seq<Tag>, chosen: seq<Tag>)
    requires |registry| > 0 && |chosen| > 0 && chosen[0] == registry[0]
    requires forall t :: t in registry[1..] ==> t.id != registry[0].id
    requires Filter(registry[1..], ListedIn(TagIdsOf(chosen[1..]))) == chosen[1..]
    ensures Filter(registry, ListedIn(TagIdsOf(chosen))) == chosen
  {
    var ids := TagIdsOf(chosen);
    TagIdsCons(chosen);
    ExtraIdNotListed(registry[1..], chosen[0].id, TagIdsOf(chosen[1..]));
    assert ListedIn(ids)(registry[0]);
    assert Filter(registry, ListedIn(ids)) == [registry[0]] + Filter(registry[1..], ListedIn(ids));
    assert chosen == [chosen[0]] + chosen[1..];
  }

  lemma TagIdsCons(tags: seq<Tag>)
    requires |tags| > 0
    ensures TagIdsOf(tags) == [tags[0].id] + TagIdsOf(tags[1..])
  {
  }

  /** An id no tag of `tags` carries does not change which of them are listed. */
  lemma ExtraIdNotListed(tags: seq<Tag>, id: string, tagIds: seq<string>)
    requires forall t :: t in tags ==> t.id != id
    ensures Filter(tags, ListedIn([id] + tagIds)) == Filter(tags, ListedIn(tagIds))
  {
    FilterAgree(tags, ListedIn([id] + tagIds), ListedIn(tagIds));
  }

  /** Resolution step when the first registry tag was not chosen. */
  lemma ResolveHeadSkipped(registry: seq<Tag>, chosen: seq<Tag>)
    requires |registry| > 0
    requires forall t :: t in chosen ==> t in registry[1..]
    requires forall t :: t in registry[1..] ==> t.id != registry[0].id
    requires ResolveTags(registry[1..], TagIdsOf(chosen)) == chosen
    ensures ResolveTags(registry, TagIdsOf(chosen)) == chosen
  {
    var ids := TagIdsOf(chosen);
    forall k | 0 <= k < |ids| ensures ids[k] != registry[0].id {
      assert chosen[k] in chosen;
    }
    assert !ListedIn(ids)(registry[0]);
  }

  /** Resolving the ids of tags chosen from the registry, in registry order,
      gives back exactly the chosen tags. */
  lemma {:induction false} ResolveChosenTags(registry: seq<Tag>, chosen: seq<Tag>)
    requires UniqueTagIds(registry)
    requires SubsequenceOf(chosen, registry)
    ensures ResolveTags(registry, TagIdsOf(chosen)) == chosen
    decreases |registry|
  {
    if |registry| > 0 {
      var tail := registry[1..];
      UniqueTagIdsTail(registry);
      if |chosen| > 0 && chosen[0] == registry[0] && SubsequenceOf(chosen[1..], tail) {
        ResolveChosenTags(tail, chosen[1..]);
        ResolveHeadChosen(registry, chosen);
      } else {
        ResolveChosenTags(tail, chosen);
        SubsequenceMembers(chosen, tail);
        ResolveHeadSkipped(registry, chosen);
      }
    }
  }

  /** A note created from tags chosen in registry order resolves back to the
      submitted data. */
  lemma CreateThenResolve(notes: seq<RawNote>, registry: seq<Tag>, data: NoteData, freshId: string)
    requires IdIsFresh(notes, freshId)
    requires UniqueTagIds(registry)
    requires SubsequenceOf(data.tags, registry)
    ensures
      var view := NotesWithTags(CreateNote(notes, data, freshId), registry)[|notes|];
      && view.id == freshId && view.title == data.title && view.markdown == data.markdown
      && view.tags == data.tags && view.images == data.images
  {
    ResolveChosenTags(registry, data.tags);
  }

  // ---------------------------------------------------------------------------
  // Runs of repository operations
  // ---------------------------------------------------------------------------

  /** One call into the repository. A creation carries the id `uuidV4()` drew. */
  datatype NoteOp =
    | Create(data: NoteData, freshId: string)
    | Update(id: string, data: NoteData)
    | Delete(id: string)

  predicate Admissible(notes: seq<RawNote>, op: NoteOp) {
    op.Create? ==> IdIsFresh(notes, op.freshId)
  }

  function Apply(notes: seq<RawNote>, op: NoteOp): seq<RawNote>
    requires Admissible(notes, op)
  {
    match op
    case Create(data, freshId) => CreateNote(notes, data, freshId)
    case Update(id, data) => UpdateNote(notes, id, data)
    case Delete(id) => DeleteNote(notes, id)
  }

  /** Every creation in the run draws an id not yet in use. */
  predicate AdmissibleRun(notes: seq<RawNote>, ops: seq<NoteOp>)
    decreases |ops|
  {
    |ops| == 0 || (Admissible(notes, ops[0]) && AdmissibleRun(Apply(notes, ops[0]), ops[1..]))
  }

  function Run(notes: seq<RawNote>, ops: seq<NoteOp>): seq<RawNote>
    requires AdmissibleRun(notes, ops)
    decreases |ops|
  {
    if |ops| == 0 then notes else Run(Apply(notes, ops[0]), ops[1..])
  }

  /** Any run of creates, updates and deletes keeps note ids unique. */
  lemma {:induction false} RunKeepsIdsUnique(notes: seq<RawNote>, ops: seq<NoteOp>)
    requires UniqueIds(notes)
    requires AdmissibleRun(notes, ops)
    ensures UniqueIds(Run(notes, ops))
    decreases |ops|
  {
    if |ops| > 0 {
      if ops[0].Delete? {
        DeleteKeepsIdsUnique(notes, ops[0].id);
      }
      RunKeepsIdsUnique(Apply(notes, ops[0]), ops[1..]);
    }
  }

  /** One registry operation: `addTag`, `updateTag` or `deleteTag`. */
  datatype TagOp =
    | AddTagOp(tag: Tag)
    | RenameTagOp(id: string, labelText: string)
    | DeleteTagOp(id: string)

  /** An added tag carries an id the registry does not use yet. */
  predicate TagAdmissible(tags: seq<Tag>, op: TagOp) {
    op.AddTagOp? ==> forall t :: t in tags ==> t.id != op.tag.id
  }

  function ApplyTag(tags: seq<Tag>, op: TagOp): seq<Tag> {
    match op
    case AddTagOp(tag) => AddTag(tags, tag)
    case RenameTagOp(id, labelText) => UpdateTag(tags, id, labelText)
    case DeleteTagOp(id) => DeleteTag(tags, id)
  }

  predicate AdmissibleTagRun(tags: seq<Tag>, ops: seq<TagOp>)
    decreases |ops|
  {
    |ops| == 0 || (TagAdmissible(tags, ops[0]) && AdmissibleTagRun(ApplyTag(tags, ops[0]), ops[1..]))
  }

  function RunTags(tags: seq<Tag>, ops: seq<TagOp>): seq<Tag>
    decreases |ops|
  {
    if |ops| == 0 then tags else RunTags(ApplyTag(tags, ops[0]), ops[1..])
  }

  /** Any run of adds with fresh ids, renames and deletes keeps registry ids
      unique, which resolution relies on. */
  lemma {:induction false} RunKeepsTagIdsUnique(tags: seq<Tag>, ops: seq<TagOp>)
    requires UniqueTagIds(tags)
    requires AdmissibleTagRun(tags, ops)
    ensures UniqueTagIds(RunTags(tags, ops))
    decreases |ops|
  {
    if |ops| > 0 {
      ApplyTagKeepsIdsUnique(tags, ops[0]);
      RunKeepsTagIdsUnique(ApplyTag(tags, ops[0]), ops[1..]);
    }
  }

  /** Each admissible registry operation keeps registry ids unique. */
  lemma ApplyTagKeepsIdsUnique(tags: seq<Tag>, op: TagOp)
    requires UniqueTagIds(tags)
    requires TagAdmissible(tags, op)
    ensures UniqueTagIds(ApplyTag(tags, op))
  {
    match op
    case AddTagOp(tag) => AddTagKeepsIdsUnique(tags, tag);
    case RenameTagOp(id, labelText) => UpdateTagKeepsIdsUnique(tags, id, labelText);
    case DeleteTagOp(id) => DeleteTagKeepsIdsUnique(tags, id);
  }

  /** The creation scenario: one note, fresh id, no tags, no images. */
  lemma CreateFirstNote(freshId: string)
    ensures CreateNote([], NoteData("A", "hello", [], []), freshId)
         == [RawNote(freshId, "A", "hello", [], Some([]))]
  {
    assert TagIdsOf([]) == [];
  }
}

=== FILE: options.dfy ===
/** Values JavaScript may leave `undefined`: a stored field that was never
    written, a storage key that is absent, a `find` that matched nothing. */
module Options {

  datatype Option<T> = None | Some(value: T)

  /** `x || fallback` for a value that is never falsy when it is there, as
      with the arrays the application stores. */
  function OrElse<T>(x: Option<T>, fallback: T): (r: T)
    ensures x.Some? ==> r == x.value
    ensures x.None? ==> r == fallback
  {
    if x.Some? then x.value else fallback
  }
}

=== FILE: seqs.dfy ===
/** Sequence operations shared by the note store and the editor: the
    `Array.prototype.filter`/`map` and `String.prototype.includes` that the
    application is built from, with the facts about them the rest of the model
    relies on. */
module Seqs {

  /** `a` is obtained from `b` by deleting elements; what remains keeps the
      order it had in `b`. */
  predicate SubsequenceOf<T(==)>(a: seq<T>, b: seq<T>)
    decreases |b|
  {
    if |a| == 0 then true
    else if |b| == 0 then false
    else (a[0] == b[0] && SubsequenceOf(a[1..], b[1..])) || SubsequenceOf(a, b[1..])
  }

  /** The elements of `s` that satisfy `p`, in their order in `s`, each kept as
      often as it occurs. */
  function Filter<T(==,!new)>(s: seq<T>, p: T -> bool): (r: seq<T>)
    ensures |r| <= |s|
    ensures forall x :: x in r <==> x in s && p(x)
    ensures SubsequenceOf(r, s)
  {
    if |s| == 0 then []
    else
      assert s == [s[0]] + s[1..];
      var rest := Filter(s[1..], p);
      if p(s[0]) then
        assert ([s[0]] + rest)[1..] == rest;
        [s[0]] + rest
      else rest
  }

  /** `f` applied to every element of `s`, position by position. */
  function Map<T, U>(s: seq<T>, f: T -> U): (r: seq<U>)
    ensures |r| == |s|
    ensures forall i :: 0 <= i < |s| ==> r[i] == f(s[i])
  {
    if |s| == 0 then [] else [f(s[0])] + Map(s[1..], f)
  }

  /** No two elements of `s` share a key. */
  ghost predicate UniqueBy<T, K>(s: seq<T>, key: T -> K) {
    forall i, j :: 0 <= i < j < |s| ==> key(s[i]) != key(s[j])
  }

  predicate IsPrefix<T(==)>(p: seq<T>, s: seq<T>) {
    |p| <= |s| && s[..|p|] == p
  }

  /** `needle` occurs contiguously in `hay` (JavaScript's `hay.includes(needle)`;
      the empty string occurs in every string). */
  predicate IsSubstring<T(==)>(needle: seq<T>, hay: seq<T>)
    decreases |hay|
  {
    IsPrefix(needle, hay) || (|hay| > 0 && IsSubstring(needle, hay[1..]))
  }

  /** Filtering distributes over concatenation: it keeps relative order. */
  lemma {:induction false} FilterConcat<T(!new)>(a: seq<T>, b: seq<T>, p: T -> bool)
    ensures Filter(a + b, p) == Filter(a, p) + Filter(b, p)
  {
    if |a| == 0 {
      assert a + b == b;
    } else {
      assert (a + b)[1..] == a[1..] + b;
      FilterConcat(a[1..], b, p);
    }
  }

  /** A filter that every element passes changes nothing. */
  lemma {:induction false} FilterKeepsAll<T(!new)>(s: seq<T>, p: T -> bool)
    requires forall x :: x in s ==> p(x)
    ensures Filter(s, p) == s
  {
    if |s| > 0 {
      FilterKeepsAll(s[1..], p);
    }
  }

  /** Only the verdicts on elements of `s` matter. */
  lemma {:induction false} FilterAgree<T(!new)>(s: seq<T>, p: T -> bool, q: T -> bool)
    requires forall x :: x in s ==> p(x) == q(x)
    ensures Filter(s, p) == Filter(s, q)
  {
    if |s| > 0 {
      FilterAgree(s[1..], p, q);
    }
  }

  /** Two filters may be applied in either order. */
  lemma {:induction false} FilterCommute<T(!new)>(s: seq<T>, p: T -> bool, q: T -> bool)
    ensures Filter(Filter(s, p), q) == Filter(Filter(s, q), p)
  {
    if |s| > 0 {
      FilterCommute(s[1..], p, q);
    }
  }

  /** A map that does not change any element's verdict commutes with the filter. */
  lemma {:induction false} FilterMapCommute<T(!new)>(s: seq<T>, f: T -> T, p: T -> bool)
    requires forall x :: p(f(x)) == p(x)
    ensures Filter(Map(s, f), p) == Map(Filter(s, p), f)
  {
    if |s| > 0 {
      assert Map(s, f)[1..] == Map(s[1..], f);
      FilterMapCommute(s[1..], f, p);
    }
  }

  /** When `q` is the negation of `p` on `s`, the two filters split `s`: every
      occurrence lands in exactly one of them. */
  lemma {:induction false} FilterPartition<T(!new)>(s: seq<T>, p: T -> bool, q: T -> bool)
    requires forall x :: x in s ==> q(x) == !p(x)
    ensures multiset(Filter(s, p)) + multiset(Filter(s, q)) == multiset(s)
  {
    if |s| > 0 {
      var t := s[1..];
      FilterPartition(t, p, q);
      FilterHead(s, p);
      FilterHead(s, q);
      assert s == [s[0]] + t;
      assert multiset(s) == multiset([s[0]]) + multiset(t);
      assert q(s[0]) == !p(s[0]);
    }
  }

  /** How the first element contributes to a filter's multiset. */
  lemma FilterHead<T(!new)>(s: seq<T>, p: T -> bool)
    requires |s| > 0
    ensures multiset(Filter(s, p))
         == (if p(s[0]) then multiset([s[0]]) else multiset{}) + multiset(Filter(s[1..], p))
  {
    if p(s[0]) {
      assert Filter(s, p) == [s[0]] + Filter(s[1..], p);
    }
  }

  /** Filtering keeps each element that passes exactly as often as it
      occurs, and drops every occurrence of the others. */
  lemma {:induction false} FilterCount<T(!new)>(s: seq<T>, p: T -> bool)
    ensures forall x :: multiset(Filter(s, p))[x] == if p(x) then multiset(s)[x] else 0
  {
    if |s| > 0 {
      var t := s[1..];
      FilterCount(t, p);
      forall x ensures multiset(Filter(s, p))[x] == if p(x) then multiset(s)[x] else 0 {
        ConsCount(s, x);
        if p(s[0]) {
          var f := Filter(s, p);
          assert f == [s[0]] + Filter(t, p);
          assert f[1..] == Filter(t, p);
          ConsCount(f, x);
        }
      }
    }
  }

  /** How often `x` occurs in a non-empty sequence, counted from its head. */
  lemma ConsCount<T>(s: seq<T>, x: T)
    requires |s| > 0
    ensures multiset(s)[x] == (if s[0] == x then 1 else 0) + multiset(s[1..])[x]
  {
    assert s == [s[0]] + s[1..];
  }

  /** A subsequence of a subsequence is a subsequence. */
  lemma {:induction false} SubsequenceTransitive<T>(a: seq<T>, b: seq<T>, c: seq<T>)
    requires SubsequenceOf(a, b) && SubsequenceOf(b, c)
    ensures SubsequenceOf(a, c)
    decreases |c|
  {
    if |a| > 0 {
      if a[0] == b[0] && SubsequenceOf(a[1..], b[1..]) {
        if b[0] == c[0] && SubsequenceOf(b[1..], c[1..]) {
          SubsequenceTransitive(a[1..], b[1..], c[1..]);
        } else {
          SubsequenceTransitive(a, b, c[1..]);
        }
      } else {
        assert SubsequenceOf(a, b[1..]);
        if b[0] == c[0] && SubsequenceOf(b[1..], c[1..]) {
          SubsequenceTransitive(a, b[1..], c[1..]);
        } else {
          SubsequenceTransitive(a, b, c[1..]);
        }
      }
    }
  }

  /** Every element of a subsequence is an element of the whole. */
  lemma {:induction false} SubsequenceMembers<T>(a: seq<T>, b: seq<T>)
    requires SubsequenceOf(a, b)
    ensures forall x :: x in a ==> x in b
    decreases |b|
  {
    if |a| > 0 {
      if a[0] == b[0] && SubsequenceOf(a[1..], b[1..]) {
        SubsequenceMembers(a[1..], b[1..]);
        assert a == [a[0]] + a[1..];
      } else {
        SubsequenceMembers(a, b[1..]);
      }
    }
  }

  lemma {:induction false} SubsequenceOfSelf<T>(s: seq<T>)
    ensures SubsequenceOf(s, s)
  {
    if |s| > 0 {
      SubsequenceOfSelf(s[1..]);
    }
  }

  /** A needle with an element the haystack lacks does not occur in it. */
  lemma {:induction false} MissingElementNoSubstring<T>(x: T, needle: seq<T>, hay: seq<T>)
    requires x in needle && x !in hay
    ensures !IsSubstring(needle, hay)
    decreases |hay|
  {
    if |hay| > 0 {
      MissingElementNoSubstring(x, needle, hay[1..]);
    }
  }

  /** Filtering keeps keys unique. */
  lemma {:induction false} FilterUniqueBy<T(!new), K>(s: seq<T>, p: T -> bool, key: T -> K)
    requires UniqueBy(s, key)
    ensures UniqueBy(Filter(s, p), key)
  {
    if |s| > 0 {
      var tail := s[1..];
      assert UniqueBy(tail, key) by {
        forall i, j | 0 <= i < j < |tail| ensures key(tail[i]) != key(tail[j]) {
          assert tail[i] == s[i + 1] && tail[j] == s[j + 1];
        }
      }
      FilterUniqueBy(tail, p, key);
      var rest := Filter(tail, p);
      if p(s[0]) {
        var r := [s[0]] + rest;
        forall i, j | 0 <= i < j < |r| ensures key(r[i]) != key(r[j]) {
          if i == 0 {
            assert r[j] in tail;
            var k :| 0 <= k < |tail| && tail[k] == r[j];
            assert s[k + 1] == r[j];
          } else {
            assert r[i] == rest[i - 1] && r[j] == rest[j - 1];
          }
        }
      }
    }
  }

  /** A needle occurs in any concatenation that contains it. */
  lemma {:induction false} SubstringOfConcat<T>(a: seq<T>, needle: seq<T>, b: seq<T>)
    ensures IsSubstring(needle, a + needle + b)
  {
    if |a| == 0 {
      assert a + needle + b == needle + b;
      assert (needle + b)[..|needle|] == needle;
    } else {
      SubstringOfConcat(a[1..], needle, b);
      assert (a + needle + b)[1..] == a[1..] + needle + b;
    }
  }
}
